=== FILE: README.md ===
# Fitness-plan PDF mailer, modelled in Dafny

The repository is a single serverless HTTP handler, `api/send-plan.js`. It
accepts a JSON body `{ email, answers, plan }`, renders the plan into an A4
PDF, and mails the PDF with Resend. This project models four parts of it:

- the request classification: preflight, wrong method, missing fields, and
  an acknowledgement that always says `ok: true`;
- the order in which a plan becomes text: a title, a greeting, the four
  optional sections, then the schedule day by day and exercise by exercise;
- the `draw` closure: `split("\n")`, a cursor starting at y = 800 that drops
  by `size + pad` per line and returns to 800 below y = 60, appending a page;
- the JavaScript coercions the handler relies on: truthiness, `x || y`,
  `String(x)` in template literals, and decimal printing of `i + 1`.

Modules:

- `Text` (`text.dfy`): `split("\n")` and its inverse, and integer printing
  and parsing.
- `Js` (`js.dfy`): JSON scalar values, truthiness, and text conversion.
- `Pagination` (`pagination.dfy`): the cursor and the draw loop. It also
  holds the closed-form layout and the page-targeting defect with its
  correction.
- `Plans` (`plans.dfy`): plan records, the sequence of `draw` calls, and the
  rendered document.
- `Handler` (`handler.dfy`): the HTTP outcome of a request.

A drawn line is a record `Draw(text, x, y, size, page)`. A rendered
document is its list of draws plus the number of pages the PDF has.
Whether a foreign call threw is a parameter of `Handler.Handle`, and so is
the page each line is drawn on (as written, or corrected). The foreign
calls include `PDFDocument.create`, `addPage`, `embedFont`,
`page.drawText`, `save`, the base64 encoding `Buffer.from(...)`, the
mail client's construction `new Resend(...)` (which throws when no API
key is configured) and `emails.send`.

Facts about `api/send-plan.js` that the model makes explicit:

- **Section order.** The schedule is drawn last, after the Cool-down
  section (`api/send-plan.js:46-60`).
- **Renderer failure.** Anything thrown inside the `try` still gets 200
  `{ ok: true, message: "Plan queued, email may be delayed" }`
  (`api/send-plan.js:84-87`).
- **Page count.** A single `draw` of `m` lines at step `k` leaves
  `1 + m / n` pages, where `n = 740 / k + 1` lines fit on a page; 38 lines
  fit at the default step of 20. When `m` is a multiple of `n`, the last
  line appends an empty trailing page.
- **Page targeting.** Every line is drawn on the first page. The `page`
  handle is bound once (`api/send-plan.js:27`) and `addPage`'s result is
  discarded (`api/send-plan.js:38`). See Findings.
- **Rendered fields.** Only `summary`, `warmup`, `cardio`, `cooldown` and
  `schedule` (each day's `title` and `exercises`, each exercise's `name`,
  `sets` and `reps`) are drawn.
- **Left margin.** Every line is drawn at x = 50 (`api/send-plan.js:34`).

## Model

| member | source | states |
|---|---|---|
| Text.Split | api/send-plan.js:32 | `split("\n")` yields one more piece than there are newlines |
| Text.SplitPiecesPlain | api/send-plan.js:32-33 | no piece of a split contains a newline |
| Text.JoinSplit | api/send-plan.js:32 | joining the split pieces with newlines gives back the original text, so splitting loses no character |
| Text.SplitJoin | api/send-plan.js:32 | splitting a newline-join of newline-free pieces gives back exactly those pieces, empty ones included |
| Text.SplitAround | api/send-plan.js:32 | the pieces of `a + "\n" + b` are the pieces of `a` followed by the pieces of `b` |
| Text.SplitSingle | api/send-plan.js:32 | a text without a newline splits into itself alone |
| Text.TrailingNewline | api/send-plan.js:44 | a trailing newline (as in the greeting) adds exactly one empty line after the text |
| Text.NatToDecimal | api/send-plan.js:53 | the printed day number is a non-empty run of digits with no leading zero |
| Text.IntToDecimal | api/send-plan.js:53 | a printed integer is non-empty, has no newline, and starts with `-` exactly when it is negative |
| Text.ParseNatDecimal | api/send-plan.js:53 | reading back the digits of a natural number gives that number |
| Text.ParseIntDecimal | api/send-plan.js:53 | reading back a printed integer gives that integer, so distinct day numbers print distinctly |
| Js.ToText | api/send-plan.js:46-56 | `String(v)` is empty exactly for the empty string; a missing value prints as "undefined" and `null` as "null" |
| Js.NumberText | api/send-plan.js:53-56 | a number prints as an optional minus sign and decimal digits, with no exponent, and reads back as the same number |
| Js.OrEmptyIsEmptyIff | api/send-plan.js:53-56 | `v \|\| ""` prints nothing exactly when `v` is falsy, and prints "undefined"/"null" only for those literal strings |
| Pagination.Advance | api/send-plan.js:35-39 | the cursor drops by `size + pad`, or returns to 800 when it would fall below 60; a page is appended exactly on that return, and the cursor stays within [60, 800] |
| Pagination.EmitLines | api/send-plan.js:31-41 | a `draw` emits one line per split piece, in order, at x = 50 and the given size; the first line is at the cursor; as written every line goes to page 0 |
| Pagination.EmitCalls | api/send-plan.js:31-41 | a sequence of `draw` calls emits every piece of every call in order at x = 50; as written all on page 0 |
| Pagination.EmitCall | api/send-plan.js:31-34 | one `draw` call draws one line more than its text has newlines |
| Pagination.CallLines | api/send-plan.js:31-34 | the lines of one `draw` call hold no newline, all have the call's size, and joined with newlines they give back the call's text |
| Pagination.PiecesAppend | api/send-plan.js:31-32 | the lines of two runs of `draw` calls are those of the first run followed by those of the second |
| Pagination.LinesStayOnPage | api/send-plan.js:34-39 | every line of a `draw` is at a height within [60, 800]; consecutive lines are exactly `size + pad` apart or restart at 800 |
| Pagination.CallsStayOnPage | api/send-plan.js:31-41 | across any sequence of `draw` calls, no line is drawn below the bottom margin or above the top |
| Pagination.TrailStartsAtCursor | api/send-plan.js:29-34 | a run of draws starts at the current cursor height |
| Pagination.LinePageCount | api/send-plan.js:36-38 | the pages appended by one `draw` are exactly the times the cursor returned to the top |
| Pagination.CallsPageCount | api/send-plan.js:36-38 | the pages appended by a sequence of `draw` calls are exactly the returns of the cursor to the top |
| Pagination.HeightIsLinear | api/send-plan.js:29-35 | the `j`-th line position of a page is at height `800 - k * j` when lines are `k` apart |
| Pagination.LinesPerPage | api/send-plan.js:29-39 | `n` lines at step `k` fit between 800 and 60, and `n + 1` do not |
| Pagination.DefaultLinesPerPage | api/send-plan.js:31-36 | at the default size 12 and padding 8, 38 lines fit on a page |
| Pagination.AdvanceWithinPage | api/send-plan.js:35-36 | from any line position but the last, the cursor moves one position down the same page |
| Pagination.AdvanceAtPageEnd | api/send-plan.js:35-38 | from the last line position, the cursor returns to 800 and a page is appended |
| Pagination.UniformLayout | api/send-plan.js:31-41 | from position `j` of a page, line `i` lands at position `(j + i) % n`; the cursor ends `(j + m) / n` pages later |
| Pagination.FreshLayout | api/send-plan.js:29-41 | from a fresh document, line `i` is drawn at `800 - k * (i % n)` and the document ends with `1 + m / n` pages |
| Pagination.FirstPageOverwrites | api/send-plan.js:27-38 | as written, with more than `n` lines, line `n` is drawn on the first page at the height of line 0, although a second page exists |
| Pagination.NewestPageLinesInOrder | api/send-plan.js:31-41 | with lines drawn on the newest page, one `draw` places its lines in reading order, between the start and end cursor |
| Pagination.NewestPageCallsInOrder | api/send-plan.js:31-60 | with lines drawn on the newest page, every line of a document is in reading order, so no two share a spot |
| Pagination.LinesTargetOnlyPages | api/send-plan.js:27-38 | for one `draw`, drawing on the newest page instead of the first changes only the page of each line, not its text, place or size, nor the cursor |
| Pagination.CallsTargetOnlyPages | api/send-plan.js:27-60 | the same across any sequence of `draw` calls, including the number of pages appended |
| Plans.ExerciseEntries | api/send-plan.js:55-57 | one exercise line per exercise, in the given order |
| Plans.EntryTextShape | api/send-plan.js:43-56 | every call site passes a non-empty text; the title is one line; the greeting ends in a newline |
| Plans.EntryLabels | api/send-plan.js:43-56 | every call site's text starts with its label: "Hi ", the section heading and a colon, "Day ", "- " |
| Plans.EntrySize | api/send-plan.js:43-56 | every font size is between 12 and 18; day and exercise lines use the default 12 |
| Plans.EntryPad | api/send-plan.js:43-56 | every padding is between 8 and 16; each line moves the cursor down 30 for the title and the greeting, 22 for a section, and the default 12 + 8 = 20 for day and exercise lines |
| Plans.DayEntries | api/send-plan.js:52-58 | a day is drawn as its heading, first and only once, followed only by exercise lines, one per exercise |
| Plans.ScheduleEntries | api/send-plan.js:51-60 | the schedule holds only day headings and exercise lines, starts with the first day's heading, and numbers the days within `first .. first + days - 1` |
| Plans.RenderEntries | api/send-plan.js:43-60 | the title and the greeting are the first two calls and occur nowhere else; at most four section calls come before the schedule |
| Plans.PresentEntries | api/send-plan.js:46-49 | a section is drawn exactly when its content is truthy, and only such sections are drawn |
| Plans.PresentEntriesAppend | api/send-plan.js:46-49 | the section filter distributes over concatenation, so sections keep their order |
| Plans.RenderOrder | api/send-plan.js:43-60 | the document is the title, the greeting, the present sections in the order summary, warm-up, cardio, cool-down, then the schedule |
| Plans.NothingButGreeting | api/send-plan.js:43-51 | a plan with no truthy section and no schedule renders only the title and the greeting |
| Plans.GreetingFallback | api/send-plan.js:44 | the greeting uses the name when truthy, and "there" otherwise |
| Plans.GreetingPieces | api/send-plan.js:44 | the greeting is drawn as the lines of its text followed by one empty line; with a name free of newlines, that is exactly two lines |
| Plans.SectionPieces | api/send-plan.js:46-49 | a section is drawn as its heading with a colon, then the lines of its content |
| Plans.PlainSectionPieces | api/send-plan.js:46-49 | a section whose content is one line of text is drawn as exactly two lines, the heading and the text |
| Plans.DayEntriesShape | api/send-plan.js:52-58 | a day is drawn as its heading followed by exactly its exercises, in order |
| Plans.ScheduleSize | api/send-plan.js:51-60 | the schedule contributes one line per day plus one per exercise |
| Plans.ScheduleAppend | api/send-plan.js:52 | day numbers continue across a split of the schedule: day `i` of the second half is numbered after the first half |
| Plans.ScheduleLayout | api/send-plan.js:52-58 | the heading of day `i` is numbered `i + 1` and is immediately followed by that day's exercises |
| Plans.DayHeadingText | api/send-plan.js:53 | a day heading reads "Day N: " followed by the title, the text of a truthy title, or nothing after the colon when the title is falsy; N reads back as `i + 1` |
| Plans.ExerciseLineText | api/send-plan.js:56 | an exercise line is "- ", the name as JavaScript prints it (a missing name as "undefined"), ": ", the sets or nothing when falsy, " x ", and the reps or nothing when falsy, each count falling back on its own |
| Plans.EntriesDescend | api/send-plan.js:43-56 | every `draw` call moves the cursor down (sizes and paddings are positive) |
| Plans.CallsAppend | api/send-plan.js:43-60 | the calls and drawn lines of two runs of entries are those of the first run followed by those of the second |
| Plans.Layout | api/send-plan.js:26-60 | every piece of every call is drawn, in order, at x = 50 within [60, 800], on a page the document has; the page count is one plus the cursor's returns to the top |
| Plans.Render | api/send-plan.js:26-60 | rendering as written: every piece drawn in order, all on page 0, the page count one plus the returns to the top |
| Plans.RenderOnNewestPage | api/send-plan.js:26-60 | corrected rendering: the same lines in the same order, now in reading order across pages |
| Plans.LayoutTargetsOnlyPages | api/send-plan.js:27-60 | laying out the same entries with either page targeting gives the same lines at the same places and the same page count |
| Plans.RenderTargetsOnlyPages | api/send-plan.js:27-60 | the corrected document differs from the one as written only in the page of each line |
| Plans.TitleOverwrittenAfterBreak | api/send-plan.js:27-43 | as written, any line drawn right after a page break lands on the title's page and height, and the document has at least two pages |
| Plans.SummaryOnlyExample | api/send-plan.js:43-46 | a plan with only a summary and no name renders the title, "Hi there, here’s your full program:", an empty line, "Summary:", then the summary |
| Handler.Handle | api/send-plan.js:11-87 | only 200, 400 and 405 are answered; a plan is rendered and `ok: true` sent exactly for a POST with a truthy email and a plan; this holds under either page targeting, `FirstPage` being the handler as written |
| Handler.StatusMeaning | api/send-plan.js:11-23 | 405 answers exactly the methods other than OPTIONS and POST; 400 exactly a POST lacking an email or a plan; 200 everything else |
| Handler.Preflight | api/send-plan.js:11-13 | OPTIONS is answered 200 with no body, whatever the body |
| Handler.WrongMethod | api/send-plan.js:15-17 | any other method than OPTIONS or POST gets 405 "Method not allowed", independent of the body |
| Handler.MissingField | api/send-plan.js:20-23 | a POST with a falsy email or no plan gets 400 "Missing email or plan", and nothing is rendered |
| Handler.NoBody | api/send-plan.js:20-22 | a POST without a body is treated as `{}` and gets 400 |
| Handler.AcceptedRequest | api/send-plan.js:26-87 | an accepted POST renders the plan with the given name (all on the first page as written, in reading order with the corrected targeting) and answers 200 `ok: true`, "Plan queued for email" or, after a thrown error, "Plan queued, email may be delayed" |
| Handler.FailureMasked | api/send-plan.js:82-87 | status and `ok` flag are the same whether or not a foreign call threw; only the message differs. The document is the same too, but only because the model records the whole document either way (see partial documents under Left out) |

## Left out

- PDF bytes: pdf-lib's object model, fonts, colour, and the base64 encoding
  are not modelled. A document is its list of draws and its page count.
- Sending: the Resend client, the email payload (sender, BCC, subject, HTML
  with the greeting name, attachment) and the API key are not modelled.
  Whether any foreign call threw is a parameter; a missing API key, which
  makes `new Resend(...)` throw, is one such case and gets the same masked
  reply with nothing sent.
- The CORS headers, the `async`/`await` sequencing and `console.error`
  logging are not modelled.
- Partial documents: when a foreign call throws midway, the outcome still
  records the full document the handler was building.
- Js.ToText: numbers are safe integers (magnitude at most 2^53 - 1), which
  `String` writes in plain decimal. A fractional number such as `2.5`, and
  a JSON integer beyond that range (which `JSON.parse` rounds, and which
  `String` writes in exponent form from 10^21 on, as in "1e+21"), are not
  modelled: both need floating point. Objects and arrays in scalar
  positions are not modelled either.
- A truthy `plan.schedule` or `day.exercises` that is not an array makes the
  source throw inside `forEach`, answering the "may be delayed" message. The
  model represents these fields as arrays or absent.
- A `null` day or exercise inside an array would also throw; the model's
  days and exercises are always records.
- A truthy non-object `plan` (such as a string) reads every field as
  `undefined`; the model represents it as `Plans.EmptyPlan`.
- Handler.Handle: which texts make `page.drawText` throw is not modelled.
  With the standard Helvetica font it encodes text as WinAnsi and throws on
  any character outside that set, such as a Cyrillic name or an emoji in a
  summary. The throw happens inside the `try`, so the source answers 200
  "Plan queued, email may be delayed" and sends nothing. The model folds
  this input-dependent failure into the `failed` parameter and still
  records the whole document (see partial documents above).
- `draw` with a non-positive `size + pad` would never page; every call the
  handler makes has a positive step, so the lemmas assume one.
- Pagination.FreshLayout: states the closed form for one `draw` call from a
  fresh document. A whole plan mixes three steps (30 for the title and the
  greeting, 22 for sections, 20 for the schedule), so for a plan the page
  count is stated as the count of returns to the top (`Plans.Layout`).

## Findings

| source | as written | input that shows it | evidently intended | confidence | as-written member | corrected member |
|---|---|---|---|---|---|---|
| api/send-plan.js:27-38 | `page` is bound once to the first page; the page break appends a page but keeps drawing on the first one, so every line after a break is painted over the top of page 1 and the appended pages stay blank | one `draw` of 39 lines at size 12, pad 8: line 38 is drawn at y = 800 on the first page, over line 0; in a whole plan, a `summary` of 30 lines puts its 30th line over the title | after a break, draw on the newly added page (`page = pdfDoc.addPage(...)`), so lines read top to bottom across pages | not executed | Pagination.FirstPageOverwrites | Pagination.NewestPageCallsInOrder |
| api/send-plan.js:27-60 | the rendered document has all lines on page 0 while `pages` counts the appended pages | any plan whose lines run past y = 60 (see above) | every line lands on its own page, in reading order | not executed | Plans.TitleOverwrittenAfterBreak | Plans.RenderOnNewestPage |

`Plans.Render` keeps the behaviour as written. `Handler.Handle` takes the
page targeting as a parameter: `FirstPage` gives `Plans.Render`, and
`NewestPage` gives the corrected `Plans.RenderOnNewestPage`
(`Handler.AcceptedRequest`). `Plans.RenderTargetsOnlyPages` proves that the
two hold the same lines in the same order at the same heights, with the
same page count; only the page of each line differs.

=== FILE: handler.dfy ===
/** The HTTP handler around the renderer: method and field checks, then
    rendering and sending, answered with a fixed status and JSON reply.
    Sending itself is outside the model; whether any foreign call threw
    (creating, drawing on or saving the PDF, encoding it in base64,
    constructing the mail client, which throws without an API key, or
    sending the email) is a parameter, and so is the page targeting:
    `FirstPage` is the handler as written, `NewestPage` the corrected
    drawing. */
module Handler {
  import opened Js
  import opened Pagination
  import opened Plans

  /** The fields the handler destructures from `req.body || {}`: `email`,
      `answers?.name` and `plan` (`None` when missing or falsy). */
  datatype Body = Body(email: Value, name: Value, plan: Option<Plan>)

  /** `verb` is the HTTP method; `body` is `None` when the request has no
      body (or a falsy one). */
  datatype Request = Request(verb: string, body: Option<Body>)

  /** The reply body: none (`res.end()`), `{ error }`, or `{ ok, message }`. */
  datatype Reply = NoContent | ErrorReply(error: string) | Ack(ok: bool, message: string)

  datatype Response = Response(status: int, reply: Reply)

  /** The response, and the document when the plan was rendered. */
  datatype Outcome = Outcome(response: Response, document: Option<Document>)

  const Queued: string := "Plan queued for email"
  const QueuedDelayed: string := "Plan queued, email may be delayed"

  /** The destructured fields; a missing body reads as `{}`. */
  function Fields(req: Request): Body
  {
    match req.body
    case None => Body(Undefined, Undefined, None)
    case Some(b) => b
  }

  /** A request the handler goes on to render and send. */
  predicate Accepted(req: Request)
  {
    req.verb == "POST" && Truthy(Fields(req).email) && Fields(req).plan.Some?
  }

  /** The document drawn for an accepted request, under a page targeting. */
  function Rendered(plan: Plan, name: Value, t: Targeting): Document
  {
    match t
    case FirstPage => Render(plan, name)
    case NewestPage => RenderOnNewestPage(plan, name)
  }

  /** Only 200, 400 and 405 are ever answered; a plan is rendered exactly
      for an accepted request, and exactly those get an `ok: true`
      acknowledgement. */
  function Handle(req: Request, failed: bool, t: Targeting): (o: Outcome)
    ensures o.response.status in {200, 400, 405}
    ensures o.document.Some? <==> Accepted(req)
    ensures o.response.reply.Ack? <==> Accepted(req)
    ensures o.response.reply.Ack? ==> o.response.reply.ok
  {
    if req.verb == "OPTIONS" then
      Outcome(Response(200, NoContent), None)
    else if req.verb != "POST" then
      Outcome(Response(405, ErrorReply("Method not allowed")), None)
    else
      var fields := Fields(req);
      if !Truthy(fields.email) || fields.plan.None? then
        Outcome(Response(400, ErrorReply("Missing email or plan")), None)
      else
        var message := if failed then QueuedDelayed else Queued;
        Outcome(Response(200, Ack(true, message)), Some(Rendered(fields.plan.value, fields.name, t)))
  }

  /** What each status means: 405 answers every method other than OPTIONS
      and POST, 400 a POST lacking an email or a plan, and 200 everything
      else. */
  lemma StatusMeaning(req: Request, failed: bool, t: Targeting)
    ensures Handle(req, failed, t).response.status == 405 <==> req.verb != "OPTIONS" && req.verb != "POST"
    ensures Handle(req, failed, t).response.status == 400 <==> req.verb == "POST" && !Accepted(req)
    ensures Handle(req, failed, t).response.status == 200 <==> req.verb == "OPTIONS" || Accepted(req)
  {
  }

  /** A preflight request is answered 200 with no body, whatever it carries. */
  lemma Preflight(body: Option<Body>, failed: bool, t: Targeting)
    ensures Handle(Request("OPTIONS", body), failed, t) == Outcome(Response(200, NoContent), None)
  {
  }

  /** Any other method than OPTIONS or POST (including "post" or "GET") is
      refused with 405 before the body is looked at. */
  lemma WrongMethod(req: Request, failed: bool, t: Targeting)
    requires req.verb != "OPTIONS" && req.verb != "POST"
    ensures Handle(req, failed, t) == Outcome(Response(405, ErrorReply("Method not allowed")), None)
    ensures forall b :: Handle(req.(body := b), failed, t) == Handle(req, failed, t)
  {
  }

  /** A POST without a truthy email or without a plan is refused with 400,
      and nothing is rendered or sent. */
  lemma MissingField(req: Request, failed: bool, t: Targeting)
    requires req.verb == "POST"
    requires !Truthy(Fields(req).email) || Fields(req).plan.None?
    ensures Handle(req, failed, t) == Outcome(Response(400, ErrorReply("Missing email or plan")), None)
  {
  }

  /** An accepted request renders the plan with the given name and always
      answers 200 with `ok: true`; only the message tells whether a foreign
      call threw. As written, every line of the document is on the first
      page; with the corrected targeting the lines are in reading order. */
  lemma AcceptedRequest(req: Request, failed: bool, t: Targeting)
    requires Accepted(req)
    ensures Handle(req, failed, t).response.status == 200
    ensures t == FirstPage ==> Handle(req, failed, t).document == Some(Render(Fields(req).plan.value, Fields(req).name))
    ensures t == NewestPage ==>
      Handle(req, failed, t).document == Some(RenderOnNewestPage(Fields(req).plan.value, Fields(req).name))
    ensures Handle(req, failed, t).response.reply == Ack(true, if failed then QueuedDelayed else Queued)
  {
    var fields := Fields(req);
    assert req.verb != "OPTIONS" && req.verb == "POST";
    assert Truthy(fields.email) && fields.plan.Some?;
  }

  /** The caller cannot tell a failed send from a successful one by status
      or by the `ok` flag: only the message differs. The document agrees as
      well only because the model records the whole document either way;
      in the source a throw leaves it partial and unsent. */
  lemma FailureMasked(req: Request, t: Targeting)
    ensures Handle(req, true, t).response.status == Handle(req, false, t).response.status
    ensures Handle(req, true, t).document == Handle(req, false, t).document
    ensures Handle(req, true, t).response.reply.Ack? ==>
      && Handle(req, true, t).response.reply.ok == Handle(req, false, t).response.reply.ok
      && Handle(req, true, t).response.reply.message != Handle(req, false, t).response.reply.message
  {
  }

  /** A request without a body is never accepted. */
  lemma NoBody(verb: string, failed: bool, t: Targeting)
    ensures verb == "POST" ==>
      Handle(Request(verb, None), failed, t) == Outcome(Response(400, ErrorReply("Missing email or plan")), None)
  {
  }
}

=== FILE: js.dfy ===
/** The JavaScript values that arrive in the request body, with the two
    coercions the handler applies to them: truthiness (`if (x)`, `x || y`)
    and conversion to text (template literals and `+` with a string). */
module Js {
  import opened Text

  datatype Option<T> = None | Some(value: T)

  /** The largest integer a JSON number carries exactly (`Number.MAX_SAFE_INTEGER`). */
  const MaxSafeInteger: int := 0x1F_FFFF_FFFF_FFFF

  /** The integers `JSON.parse` yields without rounding. All of them are far
      below 10^21, so `String` writes them in plain decimal. */
  type SafeInteger = n: int | -MaxSafeInteger <= n <= MaxSafeInteger

  /** A scalar field of the parsed JSON body. `Undefined` stands for a field
      that is absent. Numbers are safe integers (see README). */
  datatype Value = Undefined | Null | Bool(b: bool) | Num(n: SafeInteger) | Str(s: string)

  /** JavaScript truthiness: `undefined`, `null`, `false`, `0` and `""` are
      falsy, everything else is truthy. */
  predicate Truthy(v: Value)
  {
    match v
    case Undefined => false
    case Null => false
    case Bool(b) => b
    case Num(n) => n != 0
    case Str(s) => s != ""
  }

  /** `String(v)`, as a template literal or string concatenation computes it.
      Only the empty string becomes empty text. */
  function ToText(v: Value): (r: string)
    ensures r == "" <==> v == Str("")
    ensures v == Undefined ==> r == "undefined"
    ensures v == Null ==> r == "null"
  {
    match v
    case Undefined => "undefined"
    case Null => "null"
    case Bool(b) => if b then "true" else "false"
    case Num(n) => IntToDecimal(n)
    case Str(s) => s
  }

  /** `${v || fallback}`: the text of `v` when it is truthy, else `fallback`. */
  function OrElse(v: Value, fallback: string): string
  {
    if Truthy(v) then ToText(v) else fallback
  }

  /** `${v || ""}` is empty exactly when `v` is falsy: a missing, zero or
      empty set/rep count shows as nothing, never as "undefined" or "0". */
  lemma OrEmptyIsEmptyIff(v: Value)
    ensures OrElse(v, "") == "" <==> !Truthy(v)
    ensures OrElse(v, "") in {"undefined", "null"} ==> v in {Str("undefined"), Str("null")}
  {
  }

  /** A number prints as an optional minus sign and decimal digits, with no
      exponent, and reads back as the same number. */
  lemma NumberText(n: SafeInteger)
    ensures var t := ToText(Num(n));
      && (forall i :: 0 <= i < |t| ==> t[i] == '-' || IsDigit(t[i]))
      && (forall i :: 1 <= i < |t| ==> IsDigit(t[i]))
      && ParseInt(t) == n
  {
    ParseIntDecimal(n);
  }
}

=== FILE: pagination.dfy ===
/** The `draw` closure of the handler: a vertical cursor that starts at the
    top of an A4 page, drops by `size + pad` after every emitted line, and
    jumps back to the top, appending a fresh page, when it falls below the
    bottom margin. Drawing is modelled as a list of draw records. */
module Pagination {
  import opened Text

  /** Where the cursor starts, and where it returns after a page break. */
  const PageTop: int := 800
  /** A cursor below this forces a page break. */
  const BottomMargin: int := 60
  const LeftMargin: int := 50
  const DefaultSize: int := 12
  const DefaultPad: int := 8

  /** The cursor: its height, and the index of the most recently appended
      page (the document has `newest + 1` pages). */
  datatype Cursor = Cursor(y: int, newest: nat)

  /** One page, cursor at the top. */
  const Start: Cursor := Cursor(PageTop, 0)

  /** One call `draw(text, size, pad)`. */
  datatype Call = Call(text: string, size: int, pad: int)

  /** One `drawText` instruction: the text, where it goes, and on which page. */
  datatype Draw = Draw(text: string, x: int, y: int, size: int, page: nat)

  /** Which page a line is drawn on. The handler binds `page` once, to the
      first page, and never rebinds it: `FirstPage`. `NewestPage` is the
      evidently intended behaviour (see the Findings in README). */
  datatype Targeting = FirstPage | NewestPage

  /** The draws emitted so far and the cursor after them. */
  datatype Emitted = Emitted(draws: seq<Draw>, cursor: Cursor)

  /** The cursor lies in the printable band of a page. */
  predicate OnPage(c: Cursor)
  {
    BottomMargin <= c.y <= PageTop
  }

  /** The call moves the cursor down. */
  predicate Descends(size: int, pad: int)
  {
    size + pad > 0
  }

  predicate AllDescend(calls: seq<Call>)
  {
    forall i :: 0 <= i < |calls| ==> Descends(calls[i].size, calls[i].pad)
  }

  /** The cursor move after one line: down by `step`, unless that falls
      below the bottom margin, in which case back to the top. */
  predicate Follows(y: int, y': int, step: int)
  {
    if y - step < BottomMargin then y' == PageTop else y' == y - step
  }

  /** The cursor update after one emitted line. A line drawn inside the
      printable band leaves the cursor inside it, and a page is appended
      exactly when the cursor returns to the top. */
  function Advance(c: Cursor, size: int, pad: int): (c': Cursor)
    ensures Follows(c.y, c'.y, size + pad)
    ensures c'.newest == c.newest || c'.newest == c.newest + 1
    ensures Descends(size, pad) && OnPage(c) ==>
      OnPage(c') && (c'.newest == c.newest + 1 <==> c'.y == PageTop)
  {
    var y := c.y - (size + pad);
    if y < BottomMargin then Cursor(PageTop, c.newest + 1) else Cursor(y, c.newest)
  }

  function Target(t: Targeting, c: Cursor): nat
  {
    match t
    case FirstPage => 0
    case NewestPage => c.newest
  }

  /** The `forEach` over the pieces of one call: each piece is drawn at the
      left margin and the current height, then the cursor advances. */
  function EmitLines(c: Cursor, lines: seq<string>, size: int, pad: int, t: Targeting): (r: Emitted)
    ensures |r.draws| == |lines|
    ensures forall i :: 0 <= i < |lines| ==>
      r.draws[i].text == lines[i] && r.draws[i].x == LeftMargin && r.draws[i].size == size
    ensures t == FirstPage ==> forall i :: 0 <= i < |lines| ==> r.draws[i].page == 0
    ensures |lines| > 0 ==> r.draws[0].y == c.y && r.draws[0].page == Target(t, c)
    ensures |lines| == 0 ==> r.cursor == c
    decreases |lines|
  {
    if |lines| == 0 then Emitted([], c)
    else
      var d := Draw(lines[0], LeftMargin, c.y, size, Target(t, c));
      var rest := EmitLines(Advance(c, size, pad), lines[1..], size, pad, t);
      Emitted([d] + rest.draws, rest.cursor)
  }

  /** The texts of a run of draws, in order. */
  function Texts(ds: seq<Draw>): seq<string>
  {
    seq(|ds|, i requires 0 <= i < |ds| => ds[i].text)
  }

  /** One call `draw(text, size, pad)`: split on "\n", then emit every piece.
      It draws one line more than the text has newlines. */
  function EmitCall(c: Cursor, call: Call, t: Targeting): (r: Emitted)
    ensures |r.draws| == Occurrences(call.text, Newline) + 1
  {
    EmitLines(c, Split(call.text), call.size, call.pad, t)
  }

  /** The lines of one call hold no newline, all have the call's size, and
      joined with newlines they give back the call's text. */
  lemma CallLines(c: Cursor, call: Call, t: Targeting)
    ensures var r := EmitCall(c, call, t);
      && (forall i :: 0 <= i < |r.draws| ==> Newline !in r.draws[i].text && r.draws[i].size == call.size)
      && Join(Texts(r.draws)) == call.text
  {
    var r := EmitCall(c, call, t);
    SplitPiecesPlain(call.text);
    JoinSplit(call.text);
    assert Texts(r.draws) == Split(call.text);
  }

  /** The pieces of a sequence of calls, in call order. */
  function Pieces(calls: seq<Call>): seq<string>
  {
    if |calls| == 0 then [] else Split(calls[0].text) + Pieces(calls[1..])
  }

  /** The pieces of two runs of calls are those of the first run followed by
      those of the second. */
  lemma {:induction false} PiecesAppend(a: seq<Call>, b: seq<Call>)
    ensures Pieces(a + b) == Pieces(a) + Pieces(b)
    decreases |a|
  {
    if |a| == 0 {
      assert a + b == b;
    } else {
      assert (a + b)[0] == a[0];
      assert (a + b)[1..] == a[1..] + b;
      PiecesAppend(a[1..], b);
    }
  }

  /** A sequence of calls, each starting where the previous one left the
      cursor. Every piece of every call becomes one draw, in order, at the
      left margin; as written, all of them go to the first page. */
  function EmitCalls(c: Cursor, calls: seq<Call>, t: Targeting): (r: Emitted)
    ensures |r.draws| == |Pieces(calls)|
    ensures forall i :: 0 <= i < |r.draws| ==>
      r.draws[i].text == Pieces(calls)[i] && r.draws[i].x == LeftMargin
    ensures t == FirstPage ==> forall i :: 0 <= i < |r.draws| ==> r.draws[i].page == 0
    decreases |calls|
  {
    if |calls| == 0 then Emitted([], c)
    else
      var first := EmitCall(c, calls[0], t);
      var rest := EmitCalls(first.cursor, calls[1..], t);
      assert Pieces(calls) == Split(calls[0].text) + Pieces(calls[1..]);
      Emitted(first.draws + rest.draws, rest.cursor)
  }

  /** Two emissions that differ at most in the page of each draw. */
  predicate SameButPage(a: Emitted, b: Emitted)
  {
    && a.cursor == b.cursor
    && |a.draws| == |b.draws|
    && forall i :: 0 <= i < |a.draws| ==> a.draws[i].(page := 0) == b.draws[i].(page := 0)
  }

  /** The page targeting of one call decides only the page of each line. */
  lemma {:induction false} LinesTargetOnlyPages(c: Cursor, lines: seq<string>, size: int, pad: int)
    ensures SameButPage(EmitLines(c, lines, size, pad, FirstPage), EmitLines(c, lines, size, pad, NewestPage))
    decreases |lines|
  {
    if |lines| > 0 {
      LinesTargetOnlyPages(Advance(c, size, pad), lines[1..], size, pad);
    }
  }

  /** Across a sequence of calls, both targetings draw the same texts at the
      same places and leave the cursor, with its page count, in the same
      state; only the page each line goes to differs. */
  lemma {:induction false} CallsTargetOnlyPages(c: Cursor, calls: seq<Call>)
    ensures SameButPage(EmitCalls(c, calls, FirstPage), EmitCalls(c, calls, NewestPage))
    decreases |calls|
  {
    if |calls| > 0 {
      LinesTargetOnlyPages(c, Split(calls[0].text), calls[0].size, calls[0].pad);
      var first := EmitCall(c, calls[0], FirstPage);
      CallsTargetOnlyPages(first.cursor, calls[1..]);
    }
  }

  /** The height of every draw, followed by the final cursor height. */
  function Trail(e: Emitted): seq<int>
  {
    seq(|e.draws|, i requires 0 <= i < |e.draws| => e.draws[i].y) + [e.cursor.y]
  }

  /** How many entries of `ys` are the top of a page. */
  function TopCount(ys: seq<int>): nat
  {
    if |ys| == 0 then 0 else (if ys[0] == PageTop then 1 else 0) + TopCount(ys[1..])
  }

  /** A return to the top after the first draw appends a page. */
  lemma TopAfterStart(e: Emitted, i: nat)
    requires 0 < i < |Trail(e)| && Trail(e)[i] == PageTop
    ensures TopCount(Trail(e)[1..]) >= 1
  {
    TopCountPos(Trail(e)[1..], i - 1);
  }

  /** A page top anywhere in the trail counts. */
  lemma {:induction false} TopCountPos(ys: seq<int>, k: nat)
    requires k < |ys| && ys[k] == PageTop
    ensures TopCount(ys) >= 1
    decreases k
  {
    if k > 0 && ys[0] != PageTop {
      TopCountPos(ys[1..], k - 1);
    }
  }

  lemma {:induction false} TopCountAppend(a: seq<int>, b: seq<int>)
    ensures TopCount(a + b) == TopCount(a) + TopCount(b)
  {
    if |a| > 0 {
      assert (a + b)[0] == a[0];
      assert (a + b)[1..] == a[1..] + b;
      TopCountAppend(a[1..], b);
    } else {
      assert a + b == b;
    }
  }

  /** Chaining two emissions chains their trails: the end of the first is
      the start of the second. */
  lemma TrailChain(first: Emitted, rest: Emitted)
    requires |first.draws| >= 1
    requires Trail(rest)[0] == first.cursor.y
    ensures Trail(Emitted(first.draws + rest.draws, rest.cursor))[1..]
      == Trail(first)[1..] + Trail(rest)[1..]
  {
    var whole := Trail(Emitted(first.draws + rest.draws, rest.cursor));
    var n := |first.draws|;
    var a := Trail(first)[1..];
    var b := Trail(rest)[1..];
    assert |whole[1..]| == |a + b|;
    forall i | 0 <= i < |a + b|
      ensures whole[1..][i] == (a + b)[i]
    {
      if i < n - 1 {
        assert whole[i + 1] == first.draws[i + 1].y;
      } else if i == n - 1 {
        assert whole[i + 1] == Trail(rest)[0];
      } else {
        assert (a + b)[i] == Trail(rest)[i - n + 1];
      }
    }
  }

  /** Cursor bound and step size for one call: starting inside the printable
      band, every piece is drawn at a height between the bottom margin and
      the top, each draw is followed by a cursor move of exactly `size + pad`
      or a reset to the top, and the cursor ends inside the band. */
  lemma {:induction false} LinesStayOnPage(c: Cursor, lines: seq<string>, size: int, pad: int, t: Targeting)
    requires Descends(size, pad) && OnPage(c)
    ensures var r := EmitLines(c, lines, size, pad, t);
      && OnPage(r.cursor)
      && (forall i :: 0 <= i < |lines| ==> BottomMargin <= r.draws[i].y <= PageTop)
      && Stepwise(r, size + pad)
    decreases |lines|
  {
    if |lines| > 0 {
      var c' := Advance(c, size, pad);
      LinesStayOnPage(c', lines[1..], size, pad, t);
      var rest := EmitLines(c', lines[1..], size, pad, t);
      var r := EmitLines(c, lines, size, pad, t);
      assert r == Emitted([r.draws[0]] + rest.draws, rest.cursor);
      forall i | 0 <= i < |lines|
        ensures BottomMargin <= r.draws[i].y <= PageTop
      {
        if i > 0 {
          assert r.draws[i] == rest.draws[i - 1];
        }
      }
      FollowStep(r.draws[0], rest, size + pad);
    }
  }

  /** The move from the `i`th drawn line to the next is one `Follows` step. */
  predicate StepAt(e: Emitted, i: nat, step: int)
    requires i + 1 < |e.draws|
  {
    Follows(e.draws[i].y, e.draws[i + 1].y, step)
  }

  /** Every move of the cursor, from one drawn line to the next and from
      the last line to the final cursor, is one `Follows` step: exactly
      `step` further down, or back at the top of a new page. */
  predicate Stepwise(e: Emitted, step: int)
  {
    && (forall i: nat :: i + 1 < |e.draws| ==> StepAt(e, i, step))
    && (|e.draws| > 0 ==> Follows(e.draws[|e.draws| - 1].y, e.cursor.y, step))
  }

  /** Drawing one more line in front, one step above the rest, keeps every
      move a `Follows` step. */
  lemma FollowStep(d: Draw, rest: Emitted, step: int)
    requires Follows(d.y, if |rest.draws| > 0 then rest.draws[0].y else rest.cursor.y, step)
    requires Stepwise(rest, step)
    ensures Stepwise(Emitted([d] + rest.draws, rest.cursor), step)
  {
    var e := Emitted([d] + rest.draws, rest.cursor);
    var ds := e.draws;
    forall i: nat | i + 1 < |ds|
      ensures StepAt(e, i, step)
    {
      assert ds[i + 1] == rest.draws[i];
      if i > 0 {
        assert ds[i] == rest.draws[i - 1];
        assert StepAt(rest, i - 1, step);
      }
    }
    if |rest.draws| > 0 {
      assert ds[|ds| - 1] == rest.draws[|rest.draws| - 1];
    }
  }

  /** Cursor bound for a whole sequence of calls: no draw lands below the
      bottom margin or above the top, and the cursor stays in the band. */
  lemma {:induction false} CallsStayOnPage(c: Cursor, calls: seq<Call>, t: Targeting)
    requires AllDescend(calls) && OnPage(c)
    ensures var r := EmitCalls(c, calls, t);
      && OnPage(r.cursor)
      && forall i :: 0 <= i < |r.draws| ==> BottomMargin <= r.draws[i].y <= PageTop
    decreases |calls|
  {
    if |calls| > 0 {
      var first := EmitCall(c, calls[0], t);
      LinesStayOnPage(c, Split(calls[0].text), calls[0].size, calls[0].pad, t);
      CallsStayOnPage(first.cursor, calls[1..], t);
    }
  }

  /** The trail of an emission starts at the height of its starting cursor. */
  lemma TrailStartsAtCursor(c: Cursor, calls: seq<Call>, t: Targeting)
    ensures Trail(EmitCalls(c, calls, t))[0] == c.y
  {
  }

  /** Drawing one more line in front drops one height from the front of the trail. */
  lemma TrailStep(d: Draw, rest: Emitted)
    ensures Trail(Emitted([d] + rest.draws, rest.cursor))[1..] == Trail(rest)
  {
    var w := Trail(Emitted([d] + rest.draws, rest.cursor));
    assert |w[1..]| == |Trail(rest)|;
    forall i | 0 <= i < |Trail(rest)|
      ensures w[1..][i] == Trail(rest)[i]
    {
      if i < |rest.draws| {
        assert w[i + 1] == rest.draws[i].y;
      }
    }
  }

  /** Page count for one call: the pages appended are exactly the times the
      cursor came back to the top after a draw. */
  lemma {:induction false} LinePageCount(c: Cursor, lines: seq<string>, size: int, pad: int, t: Targeting)
    requires Descends(size, pad) && OnPage(c)
    ensures var r := EmitLines(c, lines, size, pad, t);
      r.cursor.newest == c.newest + TopCount(Trail(r)[1..])
    decreases |lines|
  {
    var r := EmitLines(c, lines, size, pad, t);
    if |lines| > 0 {
      var c' := Advance(c, size, pad);
      var rest := EmitLines(c', lines[1..], size, pad, t);
      LinePageCount(c', lines[1..], size, pad, t);
      assert r == Emitted([r.draws[0]] + rest.draws, rest.cursor);
      TrailStep(r.draws[0], rest);
      if |rest.draws| > 0 {
        assert Trail(rest)[0] == c'.y;
      }
      assert Trail(rest) == [Trail(rest)[0]] + Trail(rest)[1..];
      TopCountAppend([Trail(rest)[0]], Trail(rest)[1..]);
    }
  }

  /** Page count: the document ends with one page plus one page for every
      time the cursor came back to the top after a draw. */
  lemma {:induction false} CallsPageCount(c: Cursor, calls: seq<Call>, t: Targeting)
    requires AllDescend(calls) && OnPage(c)
    ensures var r := EmitCalls(c, calls, t);
      r.cursor.newest == c.newest + TopCount(Trail(r)[1..])
    decreases |calls|
  {
    var r := EmitCalls(c, calls, t);
    if |calls| > 0 {
      var first := EmitCall(c, calls[0], t);
      var rest := EmitCalls(first.cursor, calls[1..], t);
      LinePageCount(c, Split(calls[0].text), calls[0].size, calls[0].pad, t);
      LinesStayOnPage(c, Split(calls[0].text), calls[0].size, calls[0].pad, t);
      CallsPageCount(first.cursor, calls[1..], t);
      TrailStartsAtCursor(first.cursor, calls[1..], t);
      TrailChain(first, rest);
      TopCountAppend(Trail(first)[1..], Trail(rest)[1..]);
    }
  }

  /** The height of the `pos`-th line position of a page when lines are
      `step` apart: the top, then `step` lower for each position. */
  function Height(step: int, pos: nat): int
  {
    if pos == 0 then PageTop else Height(step, pos - 1) - step
  }

  /** Closed form of `Height`. */
  lemma {:induction false} HeightIsLinear(step: int, pos: nat)
    ensures Height(step, pos) == PageTop - step * pos
  {
    if pos > 0 {
      HeightIsLinear(step, pos - 1);
      assert step * pos == step * (pos - 1) + step;
    }
  }

  /** Lower positions are lower on the page. */
  lemma {:induction false} HeightDecreases(step: int, a: nat, b: nat)
    requires step > 0 && a <= b
    ensures Height(step, b) <= Height(step, a)
    decreases b - a
  {
    if a < b {
      HeightDecreases(step, a, b - 1);
    }
  }

  /** How many lines of one size and padding fit on a page: the last of
      them still sits on or above the bottom margin, one more would not. */
  function LinesPerPage(step: int): (n: nat)
    requires step > 0
    ensures n >= 1
    ensures Height(step, n - 1) >= BottomMargin
    ensures Height(step, n) < BottomMargin
  {
    var q := (PageTop - BottomMargin) / step;
    HeightIsLinear(step, q);
    HeightIsLinear(step, q + 1);
    assert step * (q + 1) == step * q + step;
    q + 1
  }

  /** At the default size and padding, 38 lines fit on a page. */
  lemma DefaultLinesPerPage()
    ensures LinesPerPage(DefaultSize + DefaultPad) == 38
  {
  }

  lemma ShiftByPeriod(x: nat, n: int)
    requires n > 0
    ensures (x + n) % n == x % n && (x + n) / n == x / n + 1
  {
    var q, r := x / n, x % n;
    assert x + n == (q + 1) * n + r;
    DivModUnique(x + n, n, q + 1, r);
  }

  lemma DivModUnique(a: int, n: int, q: int, r: int)
    requires n > 0 && 0 <= r < n && a == q * n + r
    ensures a / n == q && a % n == r
  {
    var q', r' := a / n, a % n;
    assert a == q' * n + r';
    assert (q - q') * n == r' - r by {
      assert (q - q') * n == q * n - q' * n;
    }
    if q > q' {
      MulAtLeast(q - q', n);
    } else if q < q' {
      MulAtLeast(q' - q, n);
    }
  }

  lemma MulAtLeast(x: int, n: int)
    requires x >= 1 && n > 0
    ensures x * n >= n
  {
    assert x * n == (x - 1) * n + n;
  }

  /** `r` holds `count` lines of height `k` emitted from the `j`-th line
      position of page `p`: line `i` lands at position `(j + i) % n` of page
      `p + (j + i) / n` (the page only matters for `NewestPage`), and the
      cursor ends at position `(j + count) % n` of page `p + (j + count) / n`. */
  predicate Positioned(r: Emitted, count: nat, j: nat, p: nat, k: int, n: int, t: Targeting)
    requires n > 0
  {
    && |r.draws| == count
    && (forall i :: 0 <= i < count ==> r.draws[i].y == Height(k, (j + i) % n))
    && (t == NewestPage ==> forall i :: 0 <= i < count ==> r.draws[i].page == p + (j + i) / n)
    && r.cursor.y == Height(k, (j + count) % n)
    && r.cursor.newest == p + (j + count) / n
  }

  lemma LaidOutEmpty(j: nat, p: nat, size: int, pad: int, t: Targeting)
    requires Descends(size, pad) && j < LinesPerPage(size + pad)
    ensures Positioned(EmitLines(Cursor(Height(size + pad, j), p), [], size, pad, t),
      0, j, p, size + pad, LinesPerPage(size + pad), t)
  {
    DivModUnique(j, LinesPerPage(size + pad), 0, j);
  }

  /** Drawing one line and then `rest` is drawing `[first line] + rest`. */
  lemma EmitLinesStep(c: Cursor, c': Cursor, lines: seq<string>, size: int, pad: int, t: Targeting)
    requires |lines| > 0 && Advance(c, size, pad) == c'
    ensures var r := EmitLines(c, lines, size, pad, t);
      var rest := EmitLines(c', lines[1..], size, pad, t);
      && r.draws == [Draw(lines[0], LeftMargin, c.y, size, Target(t, c))] + rest.draws
      && r.cursor == rest.cursor
  {
  }

  /** From a line position before the last one, the cursor moves one
      position down on the same page. */
  lemma AdvanceWithinPage(j: nat, p: nat, size: int, pad: int)
    requires Descends(size, pad) && j + 1 < LinesPerPage(size + pad)
    ensures Advance(Cursor(Height(size + pad, j), p), size, pad) == Cursor(Height(size + pad, j + 1), p)
  {
    HeightDecreases(size + pad, j + 1, LinesPerPage(size + pad) - 1);
  }

  /** From the last line position, the cursor moves to the top of a new page. */
  lemma AdvanceAtPageEnd(j: nat, p: nat, size: int, pad: int)
    requires Descends(size, pad) && j + 1 == LinesPerPage(size + pad)
    ensures Advance(Cursor(Height(size + pad, j), p), size, pad) == Cursor(Height(size + pad, 0), p + 1)
  {
  }

  /** A line at position `j` followed by lines laid out from position
      `j + 1` of the same page are laid out from position `j`. */
  lemma PositionedWithinPage(r: Emitted, rest: Emitted, d: Draw, count: nat, j: nat, p: nat,
                             k: int, n: int, t: Targeting)
    requires 0 < n && j + 1 < n && count > 0
    requires r.draws == [d] + rest.draws && r.cursor == rest.cursor
    requires d.y == Height(k, j) && (t == NewestPage ==> d.page == p)
    requires Positioned(rest, count - 1, j + 1, p, k, n, t)
    ensures Positioned(r, count, j, p, k, n, t)
  {
    DivModUnique(j, n, 0, j);
    forall i | 0 <= i < count
      ensures r.draws[i].y == Height(k, (j + i) % n)
      ensures t == NewestPage ==> r.draws[i].page == p + (j + i) / n
    {
      if i > 0 {
        assert r.draws[i] == rest.draws[i - 1];
        assert j + 1 + (i - 1) == j + i;
      }
    }
    assert j + 1 + (count - 1) == j + count;
  }

  /** A line at the last position `j` of page `p` followed by lines laid
      out from the top of page `p + 1` are laid out from position `j`. */
  lemma PositionedAtPageEnd(r: Emitted, rest: Emitted, d: Draw, count: nat, j: nat, p: nat,
                            k: int, n: int, t: Targeting)
    requires 0 < n && j + 1 == n && count > 0
    requires r.draws == [d] + rest.draws && r.cursor == rest.cursor
    requires d.y == Height(k, j) && (t == NewestPage ==> d.page == p)
    requires Positioned(rest, count - 1, 0, p + 1, k, n, t)
    ensures Positioned(r, count, j, p, k, n, t)
  {
    DivModUnique(j, n, 0, j);
    forall i | 0 <= i < count
      ensures r.draws[i].y == Height(k, (j + i) % n)
      ensures t == NewestPage ==> r.draws[i].page == p + (j + i) / n
    {
      if i > 0 {
        assert r.draws[i] == rest.draws[i - 1];
        ShiftByPeriod(i - 1, n);
        assert j + i == (i - 1) + n;
      }
    }
    ShiftByPeriod(count - 1, n);
    assert j + count == (count - 1) + n;
  }

  /** A line drawn before the last position of a page leaves the next line
      on the same page, one position lower. */
  lemma LaidOutWithinPage(j: nat, p: nat, lines: seq<string>, size: int, pad: int, t: Targeting)
    requires Descends(size, pad) && j + 1 < LinesPerPage(size + pad) && |lines| > 0
    requires Positioned(EmitLines(Cursor(Height(size + pad, j + 1), p), lines[1..], size, pad, t),
      |lines| - 1, j + 1, p, size + pad, LinesPerPage(size + pad), t)
    ensures Positioned(EmitLines(Cursor(Height(size + pad, j), p), lines, size, pad, t),
      |lines|, j, p, size + pad, LinesPerPage(size + pad), t)
  {
    var c := Cursor(Height(size + pad, j), p);
    var c' := Cursor(Height(size + pad, j + 1), p);
    AdvanceWithinPage(j, p, size, pad);
    EmitLinesStep(c, c', lines, size, pad, t);
    PositionedWithinPage(EmitLines(c, lines, size, pad, t), EmitLines(c', lines[1..], size, pad, t),
      Draw(lines[0], LeftMargin, c.y, size, Target(t, c)), |lines|, j, p, size + pad, LinesPerPage(size + pad), t);
  }

  /** A line drawn at the last position of a page sends the next line to
      the top of the following page. */
  lemma LaidOutAtPageEnd(j: nat, p: nat, lines: seq<string>, size: int, pad: int, t: Targeting)
    requires Descends(size, pad) && j + 1 == LinesPerPage(size + pad) && |lines| > 0
    requires Positioned(EmitLines(Cursor(Height(size + pad, 0), p + 1), lines[1..], size, pad, t),
      |lines| - 1, 0, p + 1, size + pad, LinesPerPage(size + pad), t)
    ensures Positioned(EmitLines(Cursor(Height(size + pad, j), p), lines, size, pad, t),
      |lines|, j, p, size + pad, LinesPerPage(size + pad), t)
  {
    var c := Cursor(Height(size + pad, j), p);
    var c' := Cursor(Height(size + pad, 0), p + 1);
    AdvanceAtPageEnd(j, p, size, pad);
    EmitLinesStep(c, c', lines, size, pad, t);
    PositionedAtPageEnd(EmitLines(c, lines, size, pad, t), EmitLines(c', lines[1..], size, pad, t),
      Draw(lines[0], LeftMargin, c.y, size, Target(t, c)), |lines|, j, p, size + pad, LinesPerPage(size + pad), t);
  }

  /** Pagination with a single line height, from any line position. */
  lemma {:induction false} UniformLayout(j: nat, p: nat, lines: seq<string>, size: int, pad: int, t: Targeting)
    requires Descends(size, pad) && j < LinesPerPage(size + pad)
    ensures Positioned(EmitLines(Cursor(Height(size + pad, j), p), lines, size, pad, t),
      |lines|, j, p, size + pad, LinesPerPage(size + pad), t)
    decreases |lines|
  {
    if |lines| == 0 {
      LaidOutEmpty(j, p, size, pad, t);
    } else if j + 1 < LinesPerPage(size + pad) {
      UniformLayout(j + 1, p, lines[1..], size, pad, t);
      LaidOutWithinPage(j, p, lines, size, pad, t);
    } else {
      UniformLayout(0, p + 1, lines[1..], size, pad, t);
      LaidOutAtPageEnd(j, p, lines, size, pad, t);
    }
  }

  /** From a fresh page, `m` lines of one height `k` are drawn at heights
      800, 800 - k, ..., repeating every `n` lines, and leave a document of
      `1 + m / n` pages. */
  lemma FreshLayout(lines: seq<string>, size: int, pad: int, t: Targeting)
    requires Descends(size, pad)
    ensures var k := size + pad;
      var n := LinesPerPage(k);
      var r := EmitLines(Start, lines, size, pad, t);
      && (forall i :: 0 <= i < |lines| ==> r.draws[i].y == PageTop - k * (i % n))
      && r.cursor.newest + 1 == 1 + |lines| / n
  {
    var k := size + pad;
    var n := LinesPerPage(k);
    var r := EmitLines(Start, lines, size, pad, t);
    assert Start == Cursor(Height(k, 0), 0);
    UniformLayout(0, 0, lines, size, pad, t);
    forall i | 0 <= i < |lines|
      ensures r.draws[i].y == PageTop - k * (i % n)
    {
      assert r.draws[i].y == Height(k, (0 + i) % n);
      HeightIsLinear(k, i % n);
    }
  }

  /** As written, once a page break has happened the next line is drawn on
      the first page at the top, exactly where the first line already is. */
  lemma FirstPageOverwrites(lines: seq<string>, size: int, pad: int)
    requires Descends(size, pad) && |lines| > LinesPerPage(size + pad)
    ensures var n := LinesPerPage(size + pad);
      var r := EmitLines(Start, lines, size, pad, FirstPage);
      && r.cursor.newest >= 1
      && r.draws[n].page == r.draws[0].page
      && r.draws[n].y == r.draws[0].y
  {
    var k := size + pad;
    var n := LinesPerPage(k);
    var r := EmitLines(Start, lines, size, pad, FirstPage);
    assert Start == Cursor(Height(k, 0), 0);
    UniformLayout(0, 0, lines, size, pad, FirstPage);
    DivModUnique(0, n, 0, 0);
    DivModUnique(n, n, 1, 0);
    assert r.draws[0].y == Height(k, (0 + 0) % n);
    assert r.draws[n].y == Height(k, (0 + n) % n);
    DivAtLeastOne(0 + |lines|, n);
  }

  lemma DivAtLeastOne(a: int, n: int)
    requires 0 < n <= a
    ensures a / n >= 1
  {
  }

  /** `a` comes strictly before `b` in reading order: on an earlier page, or
      higher up on the same page. */
  predicate Precedes(a: Draw, b: Draw)
  {
    a.page < b.page || (a.page == b.page && a.y > b.y)
  }

  predicate InReadingOrder(ds: seq<Draw>)
  {
    forall i, j :: 0 <= i < j < |ds| ==> Precedes(ds[i], ds[j])
  }

  /** The draw lies strictly above the cursor's position. */
  predicate Above(d: Draw, c: Cursor)
  {
    d.page < c.newest || (d.page == c.newest && d.y > c.y)
  }

  /** The draw lies at or below the cursor's position. */
  predicate NotAbove(d: Draw, c: Cursor)
  {
    d.page > c.newest || (d.page == c.newest && d.y <= c.y)
  }

  /** Every draw lies at or below `from` and strictly above `to`. */
  predicate Between(ds: seq<Draw>, from: Cursor, to: Cursor)
  {
    forall i :: 0 <= i < |ds| ==> NotAbove(ds[i], from) && Above(ds[i], to)
  }

  /** The cursor never moves back: a later page, or lower on the same one. */
  predicate Moves(from: Cursor, to: Cursor)
  {
    to.newest > from.newest || (to.newest == from.newest && to.y <= from.y)
  }

  /** Two runs of draws, each in reading order and each within its stretch
      of the cursor's path, form one run in reading order within the whole
      path. */
  lemma ChainInOrder(a: seq<Draw>, b: seq<Draw>, c: Cursor, mid: Cursor, end: Cursor)
    requires InReadingOrder(a) && Between(a, c, mid) && Moves(c, mid)
    requires InReadingOrder(b) && Between(b, mid, end) && Moves(mid, end)
    ensures InReadingOrder(a + b) && Between(a + b, c, end) && Moves(c, end)
  {
    var ab := a + b;
    forall i, j | 0 <= i < j < |ab|
      ensures Precedes(ab[i], ab[j])
    {
      if j < |a| {
        assert ab[i] == a[i] && ab[j] == a[j];
      } else if i >= |a| {
        assert ab[i] == b[i - |a|] && ab[j] == b[j - |a|];
      } else {
        assert Above(ab[i], mid) && NotAbove(ab[j], mid);
      }
    }
    forall i | 0 <= i < |ab|
      ensures NotAbove(ab[i], c) && Above(ab[i], end)
    {
      if i < |a| {
        assert ab[i] == a[i];
      } else {
        assert ab[i] == b[i - |a|];
      }
    }
  }

  /** Corrected targeting, one call: the lines come out in reading order, at
      or below the starting cursor and above the final one. */
  lemma {:induction false} NewestPageLinesInOrder(c: Cursor, lines: seq<string>, size: int, pad: int)
    requires Descends(size, pad) && OnPage(c)
    ensures var r := EmitLines(c, lines, size, pad, NewestPage);
      InReadingOrder(r.draws) && Between(r.draws, c, r.cursor) && Moves(c, r.cursor)
    decreases |lines|
  {
    if |lines| > 0 {
      var c' := Advance(c, size, pad);
      var d := Draw(lines[0], LeftMargin, c.y, size, c.newest);
      NewestPageLinesInOrder(c', lines[1..], size, pad);
      EmitLinesStep(c, c', lines, size, pad, NewestPage);
      var rest := EmitLines(c', lines[1..], size, pad, NewestPage);
      assert Between([d], c, c');
      ChainInOrder([d], rest.draws, c, c', rest.cursor);
    }
  }

  /** Corrected targeting, whole document: every line is drawn in reading
      order, so no two lines share a position on a page, and every line
      lands on a page the document has. */
  lemma {:induction false} NewestPageCallsInOrder(c: Cursor, calls: seq<Call>)
    requires AllDescend(calls) && OnPage(c)
    ensures var r := EmitCalls(c, calls, NewestPage);
      InReadingOrder(r.draws) && Between(r.draws, c, r.cursor) && Moves(c, r.cursor)
    decreases |calls|
  {
    if |calls| > 0 {
      var first := EmitCall(c, calls[0], NewestPage);
      var rest := EmitCalls(first.cursor, calls[1..], NewestPage);
      NewestPageLinesInOrder(c, Split(calls[0].text), calls[0].size, calls[0].pad);
      LinesStayOnPage(c, Split(calls[0].text), calls[0].size, calls[0].pad, NewestPage);
      NewestPageCallsInOrder(first.cursor, calls[1..]);
      ChainInOrder(first.draws, rest.draws, c, first.cursor, rest.cursor);
    }
  }
}

=== FILE: plans.dfy ===
/** The order in which the handler turns a fitness plan into `draw` calls:
    a title, a greeting, the optional text sections, then the schedule day
    by day and exercise by exercise. */
module Plans {
  import opened Text
  import opened Js
  import opened Pagination

  /** One exercise of a day. Any field may be missing (`Undefined`). */
  datatype Exercise = Exercise(name: Value, sets: Value, reps: Value)

  /** One day of the schedule. `exercises` is `None` when the field is
      missing or falsy. */
  datatype Day = Day(title: Value, exercises: Option<seq<Exercise>>)

  /** The plan fields the handler renders. `schedule` is `None` when the
      field is missing or falsy. */
  datatype Plan = Plan(summary: Value, warmup: Value, cardio: Value, cooldown: Value,
                       schedule: Option<seq<Day>>)

  /** A plan with nothing in it (a request whose plan is an empty object). */
  const EmptyPlan: Plan := Plan(Undefined, Undefined, Undefined, Undefined, None)

  /** An optional text section: its heading and its content. */
  datatype Section = Section(heading: string, content: Value)

  /** One `draw` call of the handler, by call site. */
  datatype Entry =
    | TitleEntry
    | GreetingEntry(name: Value)
    | SectionEntry(section: Section)
    | DayEntry(index: int, day: Day)
    | ExerciseEntry(ex: Exercise)

  const Title: string := "Your 30-Day Personalized Fitness Plan"
  const Placeholder: string := "there"
  const GreetingEnd: string := ", here\U{2019}s your full program:"

  /** The greeting line without its trailing newline. */
  function GreetingLine(name: Value): string
  {
    "Hi " + OrElse(name, Placeholder) + GreetingEnd
  }

  /** The text each call site passes to `draw`. */
  function EntryText(e: Entry): string
  {
    match e
    case TitleEntry => Title
    case GreetingEntry(name) => GreetingLine(name) + [Newline]
    case SectionEntry(s) => s.heading + ":" + [Newline] + ToText(s.content)
    case DayEntry(index, day) => "Day " + IntToDecimal(index) + ": " + OrElse(day.title, "")
    case ExerciseEntry(ex) =>
      "- " + ToText(ex.name) + ": " + OrElse(ex.sets, "") + " x " + OrElse(ex.reps, "")
  }

  /** Every call site's text is non-empty; the title is one line, and the
      greeting ends in a newline. */
  lemma EntryTextShape(e: Entry)
    ensures |EntryText(e)| > 0
    ensures e.TitleEntry? ==> Newline !in EntryText(e)
    ensures e.GreetingEntry? ==> EntryText(e)[|EntryText(e)| - 1] == Newline
  {
  }

  /** Every call site's text starts with its label: the greeting with
      "Hi ", a section with its heading and a colon, a day with "Day ", an
      exercise with "- ". */
  lemma EntryLabels(e: Entry)
    ensures var r := EntryText(e);
      && (e.GreetingEntry? ==> |r| > 3 && r[..3] == "Hi ")
      && (e.SectionEntry? ==> |r| > |e.section.heading| && r[..|e.section.heading| + 1] == e.section.heading + ":")
      && (e.DayEntry? ==> |r| > 4 && r[..4] == "Day ")
      && (e.ExerciseEntry? ==> |r| > 2 && r[..2] == "- ")
  {
  }

  /** The font size each call site passes (12 when left to the default):
      between 12 and 18, and the default for schedule lines. */
  function EntrySize(e: Entry): (r: int)
    ensures DefaultSize <= r <= 18
    ensures e.DayEntry? || e.ExerciseEntry? ==> r == DefaultSize
  {
    match e
    case TitleEntry => 18
    case GreetingEntry(_) => 14
    case SectionEntry(_) => 12
    case _ => DefaultSize
  }

  /** The padding each call site passes (8 when left to the default). Every
      call moves the cursor down by at least 20 and at most 30: 30 for the
      title and the greeting, 22 for a section, and the default 12 + 8 for
      schedule lines. */
  function EntryPad(e: Entry): (r: int)
    ensures DefaultPad <= r <= 16
    ensures DefaultSize + DefaultPad <= EntrySize(e) + r <= 30
    ensures e.TitleEntry? || e.GreetingEntry? ==> EntrySize(e) + r == 30
    ensures e.SectionEntry? ==> EntrySize(e) + r == 22
    ensures e.DayEntry? || e.ExerciseEntry? ==> r == DefaultPad && EntrySize(e) + r == 20
  {
    match e
    case TitleEntry => 12
    case GreetingEntry(_) => 16
    case SectionEntry(_) => 10
    case _ => DefaultPad
  }

  function EntryCall(e: Entry): Call
  {
    Call(EntryText(e), EntrySize(e), EntryPad(e))
  }

  /** The exercises of a day, one entry each, in order. */
  function ExerciseEntries(exs: seq<Exercise>): (r: seq<Entry>)
    ensures |r| == |exs|
    ensures forall i :: 0 <= i < |exs| ==> r[i] == ExerciseEntry(exs[i])
  {
    if |exs| == 0 then [] else [ExerciseEntry(exs[0])] + ExerciseEntries(exs[1..])
  }

  /** How many exercises a day lists (none when `exercises` is missing). */
  function ExerciseCount(day: Day): nat
  {
    match day.exercises
    case None => 0
    case Some(exs) => |exs|
  }

  /** One day of the schedule: its heading first, and no other heading. */
  function DayEntries(index: int, day: Day): (r: seq<Entry>)
    ensures |r| == 1 + ExerciseCount(day)
    ensures forall j :: 0 <= j < |r| ==> (r[j].DayEntry? <==> j == 0) && (j > 0 ==> r[j].ExerciseEntry?)
    ensures r[0] == DayEntry(index, day)
  {
    [DayEntry(index, day)]
      + match day.exercises
        case None => []
        case Some(exs) => ExerciseEntries(exs)
  }

  /** The `forEach` over the schedule, the first day numbered `first`. It
      holds only day headings and exercise lines, the days numbered
      consecutively from `first` and headed by day `first`. */
  function ScheduleEntries(days: seq<Day>, first: int): (r: seq<Entry>)
    ensures forall j :: 0 <= j < |r| ==> r[j].DayEntry? || r[j].ExerciseEntry?
    ensures forall j :: 0 <= j < |r| && r[j].DayEntry? ==> first <= r[j].index < first + |days|
    ensures |days| > 0 ==> |r| > 0 && r[0] == DayEntry(first, days[0])
    decreases |days|
  {
    if |days| == 0 then [] else DayEntries(first, days[0]) + ScheduleEntries(days[1..], first + 1)
  }

  /** The schedule's calls, the days numbered from 1 (none without a schedule). */
  function ScheduleOf(plan: Plan): seq<Entry>
  {
    match plan.schedule
    case None => []
    case Some(days) => ScheduleEntries(days, 1)
  }

  /** The `draw` calls the handler makes for a plan, in the order of the
      source: a chain of independent `if`s. The title and the greeting come
      first and appear nowhere else; at most four sections follow. */
  function RenderEntries(plan: Plan, name: Value): (r: seq<Entry>)
    ensures |r| >= 2 && r[0] == TitleEntry && r[1] == GreetingEntry(name)
    ensures forall j :: 2 <= j < |r| ==> !r[j].TitleEntry? && !r[j].GreetingEntry?
    ensures |r| <= 6 + |ScheduleOf(plan)|
  {
    [TitleEntry, GreetingEntry(name)]
      + (if Truthy(plan.summary) then [SectionEntry(Section("Summary", plan.summary))] else [])
      + (if Truthy(plan.warmup) then [SectionEntry(Section("Warm-up", plan.warmup))] else [])
      + (if Truthy(plan.cardio) then [SectionEntry(Section("Cardio", plan.cardio))] else [])
      + (if Truthy(plan.cooldown) then [SectionEntry(Section("Cool-down", plan.cooldown))] else [])
      + ScheduleOf(plan)
  }

  /** The optional sections as one declarative list, in their fixed order. */
  function Sections(plan: Plan): seq<Section>
  {
    [Section("Summary", plan.summary), Section("Warm-up", plan.warmup),
     Section("Cardio", plan.cardio), Section("Cool-down", plan.cooldown)]
  }

  /** The entries of the sections that are present, skipping the others:
      every entry belongs to a truthy section, and every truthy section has
      its entry. */
  function PresentEntries(ss: seq<Section>): (r: seq<Entry>)
    ensures |r| <= |ss|
    ensures forall e :: e in r ==> e.SectionEntry? && e.section in ss && Truthy(e.section.content)
    ensures forall s :: s in ss && Truthy(s.content) ==> SectionEntry(s) in r
  {
    if |ss| == 0 then []
    else
      var rest := PresentEntries(ss[1..]);
      assert forall s :: s in ss[1..] ==> s in ss;
      assert forall s :: s in ss ==> s == ss[0] || s in ss[1..];
      if Truthy(ss[0].content) then [SectionEntry(ss[0])] + rest else rest
  }

  lemma {:induction false} PresentEntriesAppend(a: seq<Section>, b: seq<Section>)
    ensures PresentEntries(a + b) == PresentEntries(a) + PresentEntries(b)
  {
    if |a| == 0 {
      assert a + b == b;
    } else {
      assert (a + b)[0] == a[0];
      assert (a + b)[1..] == a[1..] + b;
      PresentEntriesAppend(a[1..], b);
    }
  }

  /** Section order: the title, the greeting, then exactly the present
      sections in the fixed order Summary, Warm-up, Cardio, Cool-down, then
      the schedule with days numbered from 1. */
  lemma RenderOrder(plan: Plan, name: Value)
    ensures RenderEntries(plan, name)
      == [TitleEntry, GreetingEntry(name)] + PresentEntries(Sections(plan)) + ScheduleOf(plan)
  {
    var ss := Sections(plan);
    var a, b, c, d := PresentOne(ss[0]), PresentOne(ss[1]), PresentOne(ss[2]), PresentOne(ss[3]);
    assert ss == [ss[0]] + ([ss[1]] + ([ss[2]] + [ss[3]]));
    PresentEntriesAppend([ss[2]], [ss[3]]);
    PresentEntriesAppend([ss[1]], [ss[2]] + [ss[3]]);
    PresentEntriesAppend([ss[0]], [ss[1]] + ([ss[2]] + [ss[3]]));
    assert PresentEntries(ss) == a + (b + (c + d));
    var head: seq<Entry> := [TitleEntry, GreetingEntry(name)];
    assert RenderEntries(plan, name) == head + a + b + c + d + ScheduleOf(plan);
    Regroup(head, a, b, c, d);
  }

  lemma Regroup<T>(h: seq<T>, a: seq<T>, b: seq<T>, c: seq<T>, d: seq<T>)
    ensures h + a + b + c + d == h + (a + (b + (c + d)))
  {
  }

  /** The entry of one section, if it is present. */
  function PresentOne(s: Section): (r: seq<Entry>)
    ensures r == PresentEntries([s])
  {
    assert [s][1..] == [];
    if Truthy(s.content) then [SectionEntry(s)] else []
  }

  /** A plan with every section absent or empty and no schedule renders as
      the title and the greeting, with no section heading. */
  lemma NothingButGreeting(plan: Plan, name: Value)
    requires !Truthy(plan.summary) && !Truthy(plan.warmup)
    requires !Truthy(plan.cardio) && !Truthy(plan.cooldown)
    requires plan.schedule.None?
    ensures RenderEntries(plan, name) == [TitleEntry, GreetingEntry(name)]
  {
  }

  /** Greeting fallback: the name when it is truthy, otherwise "there";
      a missing or null name never shows up as "undefined" or "null". */
  lemma GreetingFallback(name: Value)
    ensures !Truthy(name) ==> GreetingLine(name) == "Hi " + Placeholder + GreetingEnd
    ensures Truthy(name) ==>
      && GreetingLine(name) == "Hi " + ToText(name) + GreetingEnd
      && ToText(name) != ""
  {
  }

  /** Spelled out, the greeting without a name. */
  lemma GreetingThereText()
    ensures "Hi " + Placeholder + GreetingEnd == "Hi there, here\U{2019}s your full program:"
  {
  }

  /** The greeting's trailing newline yields a second, empty line, which
      still moves the cursor down. */
  lemma GreetingPieces(name: Value)
    ensures Split(EntryText(GreetingEntry(name))) == Split(GreetingLine(name)) + [""]
    ensures Newline !in OrElse(name, Placeholder) ==>
      Split(EntryText(GreetingEntry(name))) == [GreetingLine(name), ""]
  {
    var line := GreetingLine(name);
    assert EntryText(GreetingEntry(name)) == line + [Newline] + "";
    SplitAround(line, "");
    if Newline !in OrElse(name, Placeholder) {
      assert Newline !in line;
      SplitSingle(line);
    }
  }

  /** A section draws its heading on a line of its own, then every line of
      its content in order. */
  lemma SectionPieces(s: Section)
    requires Newline !in s.heading
    ensures Split(EntryText(SectionEntry(s))) == [s.heading + ":"] + Split(ToText(s.content))
  {
    assert EntryText(SectionEntry(s)) == (s.heading + ":") + [Newline] + ToText(s.content);
    assert Newline !in s.heading + ":";
    SplitAround(s.heading + ":", ToText(s.content));
    SplitSingle(s.heading + ":");
  }

  /** The total number of exercises over a schedule. */
  function TotalExercises(days: seq<Day>): nat
  {
    if |days| == 0 then 0 else ExerciseCount(days[0]) + TotalExercises(days[1..])
  }

  /** A day contributes its heading and one line per exercise. */
  lemma DayEntriesShape(index: int, day: Day)
    ensures |DayEntries(index, day)| == 1 + ExerciseCount(day)
    ensures DayEntries(index, day)[0] == DayEntry(index, day)
    ensures forall m :: 0 <= m < ExerciseCount(day) ==>
      DayEntries(index, day)[1 + m] == ExerciseEntry(day.exercises.value[m])
  {
  }

  /** Schedule size: `d` days with `e_i` exercises give `d + sum e_i` calls. */
  lemma {:induction false} ScheduleSize(days: seq<Day>, first: int)
    ensures |ScheduleEntries(days, first)| == |days| + TotalExercises(days)
    decreases |days|
  {
    if |days| > 0 {
      DayEntriesShape(first, days[0]);
      ScheduleSize(days[1..], first + 1);
    }
  }

  /** The schedule of two runs of days is the first run followed by the
      second, numbered on from where the first stopped. */
  lemma {:induction false} ScheduleAppend(a: seq<Day>, b: seq<Day>, first: int)
    ensures ScheduleEntries(a + b, first) == ScheduleEntries(a, first) + ScheduleEntries(b, first + |a|)
    decreases |a|
  {
    if |a| == 0 {
      assert a + b == b;
    } else {
      assert (a + b)[0] == a[0];
      assert (a + b)[1..] == a[1..] + b;
      ScheduleAppend(a[1..], b, first + 1);
    }
  }

  /** Schedule expansion: day `i` (0-based) is announced as day `first + i`
      right after all earlier days and their exercises, and its exercises
      follow it in order, one line each. */
  lemma ScheduleLayout(days: seq<Day>, first: int, i: nat)
    requires i < |days|
    ensures var entries := ScheduleEntries(days, first);
      var at := i + TotalExercises(days[..i]);
      && at + ExerciseCount(days[i]) < |entries|
      && entries[at] == DayEntry(first + i, days[i])
      && forall m :: 0 <= m < ExerciseCount(days[i]) ==>
           entries[at + 1 + m] == ExerciseEntry(days[i].exercises.value[m])
  {
    var entries := ScheduleEntries(days, first);
    var before := ScheduleEntries(days[..i], first);
    var here := DayEntries(first + i, days[i]);
    var after := ScheduleEntries(days[i + 1..], first + i + 1);
    ScheduleSplitAt(days, first, i);
    ScheduleSize(days[..i], first);
    DayInContext(entries, before, here, after, i + TotalExercises(days[..i]), first + i, days[i]);
  }

  /** A day's lines, placed after `before` and followed by `after`, sit at
      the index `at == |before|` onwards. */
  lemma DayInContext(entries: seq<Entry>, before: seq<Entry>, here: seq<Entry>, after: seq<Entry>,
                     at: nat, index: int, day: Day)
    requires here == DayEntries(index, day)
    requires entries == before + here + after
    requires |before| == at
    ensures at + ExerciseCount(day) < |entries|
    ensures entries[at] == DayEntry(index, day)
    ensures forall m :: 0 <= m < ExerciseCount(day) ==>
      entries[at + 1 + m] == ExerciseEntry(day.exercises.value[m])
  {
    DayEntriesShape(index, day);
    IndexIntoMiddle(before, here, after);
    assert entries[at] == here[0];
    forall m | 0 <= m < ExerciseCount(day)
      ensures entries[at + 1 + m] == ExerciseEntry(day.exercises.value[m])
    {
      assert entries[at + 1 + m] == here[1 + m];
    }
  }

  /** The schedule around day `i`: the days before it, then day `i`, then
      the days after it. */
  lemma ScheduleSplitAt(days: seq<Day>, first: int, i: nat)
    requires i < |days|
    ensures ScheduleEntries(days, first)
      == ScheduleEntries(days[..i], first) + DayEntries(first + i, days[i])
         + ScheduleEntries(days[i + 1..], first + i + 1)
  {
    var before, rest, after := days[..i], days[i..], days[i + 1..];
    var earlier := ScheduleEntries(before, first);
    var here := DayEntries(first + i, days[i]);
    var later := ScheduleEntries(after, first + i + 1);
    assert days == before + rest;
    ScheduleAppend(before, rest, first);
    assert ScheduleEntries(days, first) == earlier + ScheduleEntries(rest, first + i);
    assert rest == [days[i]] + after;
    ScheduleAppend([days[i]], after, first + i);
    ScheduleOne(days[i], first + i);
    assert ScheduleEntries(rest, first + i) == here + later;
    Regroup3(earlier, here, later);
  }

  /** A one-day schedule is that day's lines. */
  lemma ScheduleOne(day: Day, index: int)
    ensures ScheduleEntries([day], index) == DayEntries(index, day)
  {
    assert [day][1..] == [];
  }

  lemma Regroup3<T>(a: seq<T>, b: seq<T>, c: seq<T>)
    ensures a + (b + c) == a + b + c
  {
  }

  lemma IndexIntoMiddle<T>(a: seq<T>, b: seq<T>, c: seq<T>)
    ensures forall k :: 0 <= k < |b| ==> (a + b + c)[|a| + k] == b[k]
  {
  }

  /** A day heading carries the 1-based day number, readable back from the
      text, and nothing after the colon when the title is missing or empty. */
  lemma DayHeadingText(i: nat, day: Day)
    ensures !Truthy(day.title) ==> EntryText(DayEntry(i + 1, day)) == "Day " + IntToDecimal(i + 1) + ": "
    ensures Truthy(day.title) ==>
      EntryText(DayEntry(i + 1, day)) == "Day " + IntToDecimal(i + 1) + ": " + ToText(day.title)
    ensures var digits := |IntToDecimal(i + 1)|;
      && 4 + digits <= |EntryText(DayEntry(i + 1, day))|
      && ParseInt(EntryText(DayEntry(i + 1, day))[4..4 + digits]) == i + 1
  {
    var text := EntryText(DayEntry(i + 1, day));
    assert text[4..4 + |IntToDecimal(i + 1)|] == IntToDecimal(i + 1);
    ParseIntDecimal(i + 1);
  }

  /** An exercise line shows nothing for a missing, zero or empty set or rep
      count, each on its own, and the name as JavaScript prints it (even
      "undefined"). */
  lemma ExerciseLineText(ex: Exercise)
    ensures EntryText(ExerciseEntry(ex))
      == "- " + ToText(ex.name) + ": " + (if Truthy(ex.sets) then ToText(ex.sets) else "")
         + " x " + (if Truthy(ex.reps) then ToText(ex.reps) else "")
    ensures !Truthy(ex.sets) && !Truthy(ex.reps) ==>
      EntryText(ExerciseEntry(ex)) == "- " + ToText(ex.name) + ":  x "
    ensures ex.name == Undefined ==> EntryText(ExerciseEntry(ex))[..13] == "- undefined: "
  {
  }

  /** The calls for a sequence of entries. */
  function Calls(entries: seq<Entry>): seq<Call>
  {
    seq(|entries|, i requires 0 <= i < |entries| => EntryCall(entries[i]))
  }

  /** The calls of two runs of entries are the calls of the first run
      followed by those of the second, and so are their drawn pieces. */
  lemma {:induction false} CallsAppend(a: seq<Entry>, b: seq<Entry>)
    ensures Calls(a + b) == Calls(a) + Calls(b)
    ensures Pieces(Calls(a + b)) == Pieces(Calls(a)) + Pieces(Calls(b))
  {
    assert Calls(a + b) == Calls(a) + Calls(b);
    PiecesAppend(Calls(a), Calls(b));
  }

  /** Every call the handler makes moves the cursor down. */
  lemma EntriesDescend(entries: seq<Entry>)
    ensures AllDescend(Calls(entries))
  {
    var calls := Calls(entries);
    forall i | 0 <= i < |calls|
      ensures Descends(calls[i].size, calls[i].pad)
    {
      assert calls[i].size == EntrySize(entries[i]);
      assert calls[i].pad == EntryPad(entries[i]);
    }
  }

  /** The rendered document: every draw and the number of pages. */
  datatype Document = Document(draws: seq<Draw>, pages: nat)

  function Emit(plan: Plan, name: Value, t: Targeting): Emitted
  {
    EmitCalls(Start, Calls(RenderEntries(plan, name)), t)
  }

  /** Every piece of every call is drawn, in order, at the left margin,
      between the bottom margin and the top, on a page the document has. */
  predicate DrawsEveryPiece(d: Document, entries: seq<Entry>)
  {
    && |d.draws| == |Pieces(Calls(entries))|
    && forall i :: 0 <= i < |d.draws| ==>
      && d.draws[i].text == Pieces(Calls(entries))[i]
      && d.draws[i].x == LeftMargin
      && BottomMargin <= d.draws[i].y <= PageTop
      && d.draws[i].page < d.pages
  }

  /** Lays out a sequence of entries from the top of a fresh page. */
  function Layout(entries: seq<Entry>, t: Targeting): (d: Document)
    ensures DrawsEveryPiece(d, entries)
    ensures t == FirstPage ==> forall i :: 0 <= i < |d.draws| ==> d.draws[i].page == 0
    ensures t == NewestPage ==> InReadingOrder(d.draws)
    ensures d.pages == 1 + TopCount(Trail(EmitCalls(Start, Calls(entries), t))[1..])
    ensures var e := EmitCalls(Start, Calls(entries), t); d.draws == e.draws && d.pages == e.cursor.newest + 1
  {
    var calls := Calls(entries);
    EntriesDescend(entries);
    CallsStayOnPage(Start, calls, t);
    CallsPageCount(Start, calls, t);
    NewestPageCallsInOrder(Start, calls);
    var e := EmitCalls(Start, calls, t);
    Document(e.draws, e.cursor.newest + 1)
  }

  /** The document the handler builds. Every piece of every call is drawn,
      in order, at the left margin, between the bottom margin and the top,
      and (as written) on the first page; the page count is one plus the
      number of times the cursor returned to the top after a draw. */
  function Render(plan: Plan, name: Value): (d: Document)
    ensures DrawsEveryPiece(d, RenderEntries(plan, name))
    ensures forall i :: 0 <= i < |d.draws| ==> d.draws[i].page == 0
    ensures d.pages == 1 + TopCount(Trail(Emit(plan, name, FirstPage))[1..])
  {
    Layout(RenderEntries(plan, name), FirstPage)
  }

  /** The document with every line drawn on the page the cursor is on.
      Its lines come in reading order, so no two of them share a position
      on a page. */
  function RenderOnNewestPage(plan: Plan, name: Value): (d: Document)
    ensures DrawsEveryPiece(d, RenderEntries(plan, name))
    ensures InReadingOrder(d.draws)
  {
    Layout(RenderEntries(plan, name), NewestPage)
  }

  /** The correction changes only the page of each line: both documents
      hold the same lines at the same places, and have the same number of
      pages. */
  lemma RenderTargetsOnlyPages(plan: Plan, name: Value)
    ensures SameDrawsButPage(Render(plan, name), RenderOnNewestPage(plan, name))
  {
    var entries := RenderEntries(plan, name);
    assert Render(plan, name) == Layout(entries, FirstPage);
    assert RenderOnNewestPage(plan, name) == Layout(entries, NewestPage);
    LayoutTargetsOnlyPages(entries);
  }

  /** Two documents with the same page count and the same lines at the same
      places, except perhaps on other pages. */
  predicate SameDrawsButPage(d: Document, d': Document)
  {
    && d.pages == d'.pages
    && |d.draws| == |d'.draws|
    && forall i :: 0 <= i < |d.draws| ==> d.draws[i].(page := 0) == d'.draws[i].(page := 0)
  }

  lemma LayoutTargetsOnlyPages(entries: seq<Entry>)
    ensures SameDrawsButPage(Layout(entries, FirstPage), Layout(entries, NewestPage))
  {
    CallsTargetOnlyPages(Start, Calls(entries));
  }

  /** Target page: as written, the first draw is the title at the top of
      the first page, and every draw made after the cursor returned to the
      top lands on that same spot, on top of the title, while the page
      added by that break stays blank. */
  lemma TitleOverwrittenAfterBreak(plan: Plan, name: Value, i: nat)
    requires 0 < i < |Render(plan, name).draws|
    requires Trail(Emit(plan, name, FirstPage))[i] == PageTop
    ensures var d := Render(plan, name);
      d.draws[i].page == d.draws[0].page && d.draws[i].y == d.draws[0].y
    ensures Render(plan, name).pages >= 2
  {
    TrailStartsAtCursor(Start, Calls(RenderEntries(plan, name)), FirstPage);
    TopAfterStart(Emit(plan, name, FirstPage), i);
  }

  /** A plan with only a summary, and no name, renders the title, the
      greeting with its empty second line, and a Summary section holding
      the summary. */
  lemma SummaryOnlyExample()
    ensures var plan := EmptyPlan.(summary := Str("Lose fat"));
      && RenderEntries(plan, Undefined) == SummaryOnlyEntries
      && Pieces(Calls(RenderEntries(plan, Undefined)))
         == [Title, "Hi there, here\U{2019}s your full program:", "", "Summary:", "Lose fat"]
  {
    var plan := EmptyPlan.(summary := Str("Lose fat"));
    assert RenderEntries(plan, Undefined) == SummaryOnlyEntries;
    SummaryOnlyPieces();
  }

  const SummaryOnlyEntries: seq<Entry> :=
    [TitleEntry, GreetingEntry(Undefined), SectionEntry(Section("Summary", Str("Lose fat")))]

  lemma SummaryOnlyPieces()
    ensures Pieces(Calls(SummaryOnlyEntries))
      == [Title, "Hi there, here\U{2019}s your full program:", "", "Summary:", "Lose fat"]
  {
    var calls := Calls(SummaryOnlyEntries);
    assert calls[1..][1..][1..] == [];
    assert Pieces(calls[2..]) == Split(calls[2].text);
    assert Pieces(calls[1..]) == Split(calls[1].text) + Pieces(calls[2..]);
    assert Pieces(calls) == Split(calls[0].text) + Pieces(calls[1..]);
    var g := "Hi there, here\U{2019}s your full program:";
    assert Split(calls[0].text) == [Title] by {
      TitlePieces();
    }
    assert Split(calls[1].text) == [g, ""] by {
      GreetingTherePieces();
    }
    assert Split(calls[2].text) == ["Summary:", "Lose fat"] by {
      LoseFatPieces();
    }
    Flatten5(Title, g, "", "Summary:", "Lose fat");
  }

  lemma Flatten5<T>(a: T, b: T, c: T, d: T, e: T)
    ensures [a] + ([b, c] + [d, e]) == [a, b, c, d, e]
  {
  }

  lemma TitlePieces()
    ensures Split(EntryText(TitleEntry)) == [Title]
  {
    assert Newline !in Title;
    SplitSingle(Title);
  }

  lemma GreetingTherePieces()
    ensures Split(EntryText(GreetingEntry(Undefined))) == ["Hi there, here\U{2019}s your full program:", ""]
  {
    assert OrElse(Undefined, Placeholder) == Placeholder;
    assert Newline !in Placeholder;
    GreetingPieces(Undefined);
    GreetingFallback(Undefined);
    GreetingThereText();
  }

  lemma LoseFatPieces()
    ensures Split(EntryText(SectionEntry(Section("Summary", Str("Lose fat"))))) == ["Summary:", "Lose fat"]
  {
    assert Newline !in "Summary";
    assert Newline !in "Lose fat";
    assert "Summary" + ":" == "Summary:";
    PlainSectionPieces("Summary", "Lose fat");
  }

  /** A section whose content is one line of text is drawn as two lines. */
  lemma PlainSectionPieces(heading: string, text: string)
    requires Newline !in heading && Newline !in text && text != ""
    ensures Split(EntryText(SectionEntry(Section(heading, Str(text))))) == [heading + ":", text]
  {
    SectionPieces(Section(heading, Str(text)));
    SplitSingle(text);
  }
}

=== FILE: text.dfy ===
/** Text operations the handler leans on: JavaScript's `s.split("\n")`, its
    inverse (joining with "\n"), and the decimal rendering of integers that a
    template literal such as `Day ${i + 1}` performs. */
module Text {

  const Newline: char := '\n'

  /** Number of occurrences of `c` in `s`. */
  function Occurrences(s: string, c: char): nat
  {
    if |s| == 0 then 0 else (if s[0] == c then 1 else 0) + Occurrences(s[1..], c)
  }

  /** Puts one character in front of the pieces of the rest of a text: a
      newline starts a new, empty first piece; any other character joins
      the first piece. */
  function Glue(c: char, rest: seq<string>): (r: seq<string>)
    requires |rest| >= 1
    ensures |r| == |rest| + (if c == Newline then 1 else 0)
  {
    if c == Newline then [""] + rest else [[c] + rest[0]] + rest[1..]
  }

  /** `s.split("\n")`: the pieces between newlines, in order, empty pieces
      included (so "" gives [""] and "a\n" gives ["a", ""]). */
  function Split(s: string): (pieces: seq<string>)
    ensures |pieces| == Occurrences(s, Newline) + 1
  {
    if |s| == 0 then [""] else Glue(s[0], Split(s[1..]))
  }

  /** One step of `Split`, for a text written as a first character and the rest. */
  lemma SplitCons(c: char, t: string)
    ensures Split([c] + t) == Glue(c, Split(t))
  {
    var s := [c] + t;
    assert s[0] == c && s[1..] == t;
  }

  /** Gluing a character onto pieces only touches their front. */
  lemma GlueAppend(c: char, ra: seq<string>, rb: seq<string>)
    requires |ra| >= 1
    ensures Glue(c, ra + rb) == Glue(c, ra) + rb
  {
    if c == Newline {
      assert [""] + (ra + rb) == [""] + ra + rb;
    } else {
      assert (ra + rb)[0] == ra[0];
      assert (ra + rb)[1..] == ra[1..] + rb;
      assert [[c] + ra[0]] + (ra[1..] + rb) == [[c] + ra[0]] + ra[1..] + rb;
    }
  }

  /** No piece of a split contains a newline. */
  lemma {:induction false} SplitPiecesPlain(s: string)
    ensures forall i :: 0 <= i < |Split(s)| ==> Newline !in Split(s)[i]
  {
    if |s| > 0 {
      SplitPiecesPlain(s[1..]);
      var rest := Split(s[1..]);
      if s[0] != Newline {
        assert Newline !in [s[0]] + rest[0];
      }
    }
  }

  /** `pieces.join("\n")`. */
  function Join(pieces: seq<string>): string
  {
    if |pieces| == 0 then ""
    else if |pieces| == 1 then pieces[0]
    else pieces[0] + [Newline] + Join(pieces[1..])
  }

  /** Prepending a character to a text prepends it to the first piece. */
  lemma {:induction false} JoinConsFirst(c: char, pieces: seq<string>)
    requires |pieces| >= 1
    ensures Join([[c] + pieces[0]] + pieces[1..]) == [c] + Join(pieces)
  {
    var ps := [[c] + pieces[0]] + pieces[1..];
    if |pieces| > 1 {
      assert ps[1..] == pieces[1..];
    }
  }

  /** Joining the pieces of a split gives back the original text. */
  lemma {:induction false} JoinSplit(s: string)
    ensures Join(Split(s)) == s
  {
    if |s| > 0 {
      JoinSplit(s[1..]);
      var rest := Split(s[1..]);
      if s[0] == Newline {
        assert ([""] + rest)[1..] == rest;
        assert s == [s[0]] + s[1..];
      } else {
        JoinConsFirst(s[0], rest);
        assert s == [s[0]] + s[1..];
      }
    }
  }

  /** A text without a newline splits into itself alone. */
  lemma {:induction false} SplitSingle(s: string)
    requires Newline !in s
    ensures Split(s) == [s]
  {
    if |s| > 0 {
      assert Newline !in s[1..];
      SplitSingle(s[1..]);
      assert [s[0]] + s[1..] == s;
    }
  }

  /** A newline separates the pieces of what precedes it from the pieces of
      what follows it. */
  lemma {:induction false} SplitAround(a: string, b: string)
    ensures Split(a + [Newline] + b) == Split(a) + Split(b)
    decreases |a|
  {
    if |a| == 0 {
      assert a + [Newline] + b == [Newline] + b;
      SplitCons(Newline, b);
    } else {
      var t := a[1..] + [Newline] + b;
      assert a + [Newline] + b == [a[0]] + t;
      SplitAround(a[1..], b);
      SplitCons(a[0], t);
      GlueAppend(a[0], Split(a[1..]), Split(b));
    }
  }

  /** Splitting a join of newline-free pieces gives back the pieces. */
  lemma {:induction false} SplitJoin(pieces: seq<string>)
    requires |pieces| >= 1
    requires forall i :: 0 <= i < |pieces| ==> Newline !in pieces[i]
    ensures Split(Join(pieces)) == pieces
  {
    if |pieces| == 1 {
      SplitSingle(pieces[0]);
    } else {
      SplitJoin(pieces[1..]);
      SplitAround(pieces[0], Join(pieces[1..]));
      SplitSingle(pieces[0]);
      assert [pieces[0]] + pieces[1..] == pieces;
    }
  }

  /** A trailing newline adds exactly one empty piece at the end. */
  lemma TrailingNewline(s: string)
    requires Newline !in s
    ensures Split(s + [Newline]) == [s, ""]
  {
    assert s + [Newline] == s + [Newline] + "";
    SplitAround(s, "");
    SplitSingle(s);
  }

  predicate IsDigit(c: char)
  {
    '0' <= c <= '9'
  }

  function DigitChar(d: nat): (c: char)
    requires d < 10
    ensures IsDigit(c)
  {
    ('0' as int + d) as char
  }

  function DigitValue(c: char): (d: nat)
    requires IsDigit(c)
    ensures d < 10 && DigitChar(d) == c
  {
    c as int - '0' as int
  }

  /** The decimal digits of `n`, most significant first, with no leading zero. */
  function NatToDecimal(n: nat): (r: string)
    ensures |r| >= 1
    ensures forall i :: 0 <= i < |r| ==> IsDigit(r[i])
    ensures r[0] == '0' ==> n == 0 && r == "0"
  {
    if n < 10 then [DigitChar(n)]
    else NatToDecimal(n / 10) + [DigitChar(n % 10)]
  }

  /** How JavaScript writes an integral number as text: an optional minus
      sign followed by the decimal digits of its magnitude. */
  function IntToDecimal(n: int): (r: string)
    ensures |r| >= 1 && Newline !in r
    ensures r[0] == '-' <==> n < 0
  {
    if n < 0 then "-" + NatToDecimal(-n) else NatToDecimal(n)
  }

  /** Reads a run of decimal digits. */
  function ParseNat(s: string): nat
    requires forall i :: 0 <= i < |s| ==> IsDigit(s[i])
  {
    if |s| == 0 then 0 else 10 * ParseNat(s[..|s| - 1]) + DigitValue(s[|s| - 1])
  }

  /** Reads an optional minus sign followed by decimal digits. */
  function ParseInt(s: string): int
    requires |s| >= 1
    requires forall i :: (if s[0] == '-' then 1 else 0) <= i < |s| ==> IsDigit(s[i])
  {
    if s[0] == '-' then -(ParseNat(s[1..]) as int) else ParseNat(s)
  }

  lemma {:induction false} ParseNatDecimal(n: nat)
    ensures ParseNat(NatToDecimal(n)) == n
  {
    if n >= 10 {
      var r := NatToDecimal(n);
      assert r[..|r| - 1] == NatToDecimal(n / 10);
      ParseNatDecimal(n / 10);
    }
  }

  /** Integers are written unambiguously: reading the text back gives the
      same number, so distinct day indices and counts give distinct texts. */
  lemma ParseIntDecimal(n: int)
    ensures ParseInt(IntToDecimal(n)) == n
  {
    if n < 0 {
      ParseNegative(-n);
    } else {
      ParseNatDecimal(n);
    }
  }

  /** A minus sign followed by the digits of `m` reads back as `-m`. */
  lemma ParseNegative(m: nat)
    ensures ParseInt("-" + NatToDecimal(m)) == -(m as int)
  {
    var digits := NatToDecimal(m);
    assert ("-" + digits)[1..] == digits;
    ParseNatDecimal(m);
  }
}
